=== FILE: README.md ===
# New-year countdown: a Dafny model of its core rules

The application shows a countdown 5, 4, 3, 2, 1, 0 ("Happy 2026") as a field
of 9000 particles. The viewer drives it with one hand in front of a webcam:
closing the hand into a fist moves the countdown on, and the glyph follows the
hand and implodes while the fist is held. The project models the four pure
rules under that front end and proves properties of them:

- `countdown.dfy`, module `Countdown`: the game-logic effect of `App.tsx`. It
  is a step function over the state `(currentNumber, lastFistTime)` and one
  reading `(isReady, isFist, now)`. The 1500 ms cooldown is strict. An
  accepted fist decrements the number, and 0 wraps back to 5.
- `geometry.dfy`, module `Geometry`: `sampleTextGeometry` of
  `utils/geometry.ts`. It covers:
  - the area of each triangle and their total;
  - the prefix-sum scan that picks a triangle for a draw;
  - the barycentric weights and the point they place;
  - the layout of the output buffer.
- `hand_tracking.dfy`, module `HandTracking`: the pure part of `predict` in
  `hooks/useHandTracking.ts`. It covers:
  - skipping a frame whose video time has not changed;
  - the mirrored palm position;
  - the scale-relative fist test;
  - the update of the `HandData` record.
- `particle_field.dfy`, module `ParticleField`: the per-frame body of
  `components/ParticleNumber.tsx`. It covers:
  - the shape key and the table of sampled glyphs;
  - the wrapped point index;
  - the implosion and glyph scale;
  - the hand offset;
  - the damped spring step for every particle.
- `types.dfy` (module `Types`, the `HandData` record of `types.ts`) and
  `vectors.dfy` (module `Vectors`, three-vectors and square-root witnesses)
  are shared definitions.

All numbers are exact reals or unbounded integers. Everything the program
gets from outside is a parameter. That includes the random draws, the square
roots, the sine/cosine turbulence, the clock and the hand detector's
landmarks. Each such parameter carries the range the program's own callers
guarantee.

Square roots are modelled as witnesses. A computed length `r` of a squared
length `x` is passed in together with the fact `IsSqrt(r, x)`, that is
`r >= 0 && r * r == x`. The lemmas use uniqueness of such roots.

## Model

| member | source | states |
|---|---|---|
| Countdown.Step | App.tsx:14-30 | Without readiness or a fist nothing changes, and within 1500 ms of the last accepted fist nothing changes. The state changes exactly when the reading is accepted. An accepted reading records its time, takes a positive number down by one and takes 0 back to 5. The range 0..5 is preserved. |
| Countdown.Run | App.tsx:10-30 | Whatever sequence of readings arrives, a countdown that starts in 0..5 stays in 0..5. |
| Countdown.RunRecordsLastAccepted | App.tsx:19-20 | After a run the recorded fist time is the last accepted reading's time, or the time recorded before the run when none was accepted. |
| Countdown.InitialIsValid | App.tsx:10-11 | The application starts at 5 with last fist time 0, inside the valid range. |
| Countdown.AcceptedTimesAreReadings | App.tsx:17-20 | There are never more accepted fists than readings, and each accepted fist's recorded time is the clock time of one of the readings. |
| Countdown.CooldownSeparatesAccepted | App.tsx:19-20 | The first accepted fist comes more than 1500 ms after the previous one, and any two consecutive accepted fists are strictly more than 1500 ms apart. |
| Countdown.AtMostOnePerWindow | App.tsx:19-20 | Of readings whose times all lie in one window of 1501 ms, so that any two are at most 1500 ms apart, at most one is accepted. A held fist therefore advances the countdown at most once per cooldown. |
| Countdown.AdvanceIsDecrementMod6 | App.tsx:22-27 | On 0..5 one accepted fist is subtraction of one modulo 6. |
| Countdown.AdvanceTimesMod6 | App.tsx:22-27 | After k accepted fists from n the number shown is (n - k) mod 6. |
| Countdown.SixAdvancesCycle | App.tsx:10-27 | Six accepted fists return any valid number to itself. From 5 they pass 4, 3, 2, 1, 0 and then reach 5. |
| Countdown.RunAdvancesPerAccepted | App.tsx:19-27 | After any run the number has advanced once per accepted reading and not otherwise. |
| Countdown.SpacedAllAccepted | App.tsx:15-20 | Ready fists that each arrive more than 1500 ms after the previous one are all accepted, and the last of them is the recorded time. |
| Countdown.CountdownScenario | App.tsx:10-30 | From the initial state, six fists spaced more than 1500 ms apart show 4, 3, 2, 1, 0 in turn and then 5 again. |
| Geometry.AreaTable | utils/geometry.ts:33-45 | There is one area per triangle. Each area is half the cross-product length of the triangle's edges and is non-negative. The total is their sum and is non-negative. |
| Geometry.ScanFrom | utils/geometry.ts:50-59 | A scan resumed at triangle j, with the area accumulated before j and no earlier triangle reached, returns the least triangle whose accumulated area reaches the draw, or 0 if none does. |
| Geometry.Select | utils/geometry.ts:50-59 | The chosen triangle is the least whose accumulated area reaches the draw, or 0 when none does. It is a valid index whenever the mesh is not empty. |
| Geometry.ScanIsThreshold | utils/geometry.ts:50-59 | For a draw at most the total, the scan reaches a triangle exactly when its index is at least the chosen one, because accumulated area never decreases. |
| Geometry.SelectionUnique | utils/geometry.ts:53-57 | That characterisation determines the chosen triangle: two indices meeting it are equal. |
| Geometry.SelectionHasArea | utils/geometry.ts:53-57 | For a draw in (0, total], the chosen triangle's interval of accumulated area contains the draw, so its area is positive. |
| Geometry.BarycentricWeights | utils/geometry.ts:64-67 | The three weights always sum to 1. For a root and a second draw in [0, 1] they are non-negative, so they form a convex combination. |
| Geometry.WeightsReachEveryPoint | utils/geometry.ts:62-67 | Every convex weight triple is the transform of some pair of draws in the closed square [0, 1]². The program's half-open draws never reach the edges where s = 1 or r2 = 1; see `Geometry.HalfOpenDrawsReach`. |
| Geometry.HalfOpenDrawsReach | utils/geometry.ts:62-67 | With both draws in [0, 1), as `Math.random()` gives them, the weights reached are exactly the convex triples with u > 0 whose v is positive unless w is 0. The edge from b to c and the edge from a to c, except vertex a, are never sampled. |
| Geometry.ConvexCombinationBetween | utils/geometry.ts:73-76 | A convex combination of three numbers lies between their minimum and maximum. |
| Geometry.PointInBounds | utils/geometry.ts:69-76 | Each coordinate of the placed point lies within the triangle's vertices' range for that coordinate. |
| Geometry.SampleInsidePickedTriangle | utils/geometry.ts:48-76 | For a valid draw, the sample lies in the bounding box of the triangle the scan picked, and that index is in range. |
| Geometry.SamplePicksPositiveArea | utils/geometry.ts:49-59 | A positive scaled draw never lands on a triangle of zero area. |
| Geometry.ZeroDrawTakesFirst | utils/geometry.ts:49-59 | A zero draw takes triangle 0 whatever its area, so a degenerate first triangle, or a mesh of total area 0, can still get samples. |
| Geometry.SampleText | utils/geometry.ts:27-84 | The buffer holds exactly 3 coordinates per sample. It is NaN throughout exactly when the mesh is empty and samples were asked for. Otherwise slots 3i, 3i+1, 3i+2 hold sample i's point, and for a valid draw each coordinate lies in some triangle's box. |
| HandTracking.Detect | hooks/useHandTracking.ts:62-100 | A frame without a hand keeps x, y and the fist flag and clears presence. A detected hand is present, its x mirrors the palm landmark's x, its y is the palm's y, and it is a fist iff the mean tip distance is below 1.8 times the hand scale. |
| HandTracking.Predict | hooks/useHandTracking.ts:58-59 | A frame at the last processed video time leaves the tracker unchanged. Any other frame records its time and updates the hand reading. |
| HandTracking.FirstFrameProcessed | hooks/useHandTracking.ts:9-59 | From the initial tracker, whose last video time is -1, any frame at a non-negative video time is processed: its time is recorded and the detection applied. |
| HandTracking.InitialReading | hooks/useHandTracking.ts:6 | The first reading is the image centre, not a fist, not present, inside the unit square. |
| HandTracking.MirrorInvolution | hooks/useHandTracking.ts:68 | Mirroring undoes itself and maps [0, 1] onto itself in both directions. |
| HandTracking.FistIsSumThreshold | hooks/useHandTracking.ts:77-96 | The fist test is equivalent to the sum of the four tip distances being below 7.2 times the hand scale. |
| HandTracking.PredictSameFrameIdempotent | hooks/useHandTracking.ts:58-59 | Processing the same video time twice has the effect of processing it once, whatever the second detection says. |
| HandTracking.PredictKeepsUnitSquare | hooks/useHandTracking.ts:58-100 | The published position stays in the unit square while the detector reports the palm inside the image. |
| HandTracking.ScaledComparison | hooks/useHandTracking.ts:87-96 | Multiplying the four tip distances and the hand scale by any k > 0 leaves the fist test's outcome unchanged. |
| HandTracking.FistScaleInvariant | hooks/useHandTracking.ts:74-96 | Scaling all 21 landmarks by k > 0, as when the hand moves towards or away from the camera, leaves the fist decision unchanged. |
| HandTracking.FistTranslationInvariant | hooks/useHandTracking.ts:74-96 | Translating all landmarks leaves the fist decision unchanged. |
| ParticleField.DecimalString | components/ParticleNumber.tsx:48 | The text of a number is a canonical numeral: at least one digit and no leading zero unless it is "0", and numbers from 10 on never start with "0". |
| ParticleField.DecimalRoundTrip | components/ParticleNumber.tsx:48 | The decimal text used as a shape key reads back as the number it was printed from. |
| ParticleField.CanonicalRoundTrip | components/ParticleNumber.tsx:48 | Every canonical numeral is the text of the number it reads as, so printing and reading are inverse bijections between naturals and canonical numerals. |
| ParticleField.CanonicalUnique | components/ParticleNumber.tsx:73-76 | Two canonical numerals that read as the same number are the same string, so the lookup key is fixed by the number it denotes. |
| ParticleField.ShapeKey | components/ParticleNumber.tsx:73-74 | The key is "happy" exactly when the target number is at most 0. Otherwise it is the canonical numeral of the target number, with no leading zero, so it is the same string the table was keyed with. |
| ParticleField.BuildShapes | components/ParticleNumber.tsx:40-55 | With no font the table is empty. With a font its keys are exactly "0".."5" and "happy", each bound to its own sampled buffer. |
| ParticleField.EveryCountdownValueHasGlyph | components/ParticleNumber.tsx:45-52 | Every value the countdown can take finds its glyph in the loaded table. |
| ParticleField.ZeroNeverLookedUp | components/ParticleNumber.tsx:73-74 | No target number selects the key "0", because 0 selects "happy". |
| ParticleField.WrappedIndex | components/ParticleNumber.tsx:84 | For a buffer holding whole points, the index is the start of a point and all three of its coordinates are in bounds. Particles below the point count map to their own point. |
| ParticleField.WrappedIndexPeriodic | components/ParticleNumber.tsx:84 | Particles one point count apart share a target point. |
| ParticleField.WrappedIndexIdentity | components/ParticleNumber.tsx:84 | With 3 × 9000 coordinates, particle i targets point i. |
| ParticleField.Implode | components/ParticleNumber.tsx:91-95 | A fist over a digit pulls the local point to a tenth of its size, a hundredth of its squared norm. Otherwise the point is unchanged. |
| ParticleField.GlyphScale | components/ParticleNumber.tsx:103-105 | The scale is 0.55 exactly for 0 and 1.1 for every other number. |
| ParticleField.GlyphAndScaleAgree | components/ParticleNumber.tsx:73-105 | For every value of the countdown, the celebration glyph is drawn exactly when the celebration scale is used. |
| ParticleField.HandOffset | components/ParticleNumber.tsx:64-70 | With no hand the glyph sits at the origin, and the offset never leaves the z = 0 plane. |
| ParticleField.CentredHandNoOffset | components/ParticleNumber.tsx:64-70 | A hand at the image centre gives a zero offset. |
| ParticleField.HandOffsetInverse | components/ParticleNumber.tsx:64-65 | The offset maps back to the hand's normalised position, so the offset is the inverse of the viewport-to-image mapping. |
| ParticleField.ParticleTarget | components/ParticleNumber.tsx:76-111 | Without a buffer for the current key the target is kept. Otherwise the target minus the hand offset is the (imploded) wrapped glyph point times the glyph scale. |
| ParticleField.FistShrinksTargetsTenfold | components/ParticleNumber.tsx:91-111 | With the hand centred, a fist over a digit makes every particle's target exactly one tenth of its open-hand target. |
| ParticleField.Step | components/ParticleNumber.tsx:115-125 | The new velocity is 0.9 times the old velocity plus the spring pull and the noise force. The position moves by exactly the new velocity. Target and speed are kept. |
| ParticleField.RestIsEquilibrium | components/ParticleNumber.tsx:115-125 | Without noise, a particle at rest on its target stays there. |
| ParticleField.StepTranslationEquivariant | components/ParticleNumber.tsx:115-125 | Moving a particle and its target by the same vector moves the stepped particle by that vector and leaves its velocity unchanged. |
| ParticleField.StepVelocityBound | components/ParticleNumber.tsx:115-124 | Per axis, the new speed is at most 0.9 times the sum of the old speed, the spring pull and the noise amplitude 0.02. |
| ParticleField.UpdateFrame | components/ParticleNumber.tsx:60-125 | Before the mesh and font are ready nothing moves. Afterwards each particle gets its own target, keeps its speed, has its velocity damped after spring and noise, and moves by that velocity. With no buffer for the key, every target is kept and a field resting on its targets without turbulence does not move. With or without a buffer, a field resting on this frame's targets without turbulence does not move. |
| ParticleField.SettledParticleIsFixed | components/ParticleNumber.tsx:82-125 | A particle whose target already equals this frame's target, resting on it with no turbulence, is left exactly as it was by its frame update. |
| ParticleField.RestingFrame | components/ParticleNumber.tsx:82-125 | Every particle of a field resting on this frame's targets without turbulence is left as it was. Without a buffer for the key, resting on the kept targets is enough. |
| ParticleField.SampleGlyphs | components/ParticleNumber.tsx:43-54 | Sampling the seven glyphs with 9000 draws each gives one buffer per key of 3 × 9000 coordinates. Slots 3j..3j+2 of a glyph's buffer hold its sample j. The resulting table holds whole points only. |
| ParticleField.SampledShapesFitParticles | components/ParticleNumber.tsx:40-55 | Glyphs sampled with one point per particle hold whole points, and particle i targets point i of whichever glyph is shown. |

## Left out

- React scheduling. The countdown step is the effect's body. In the program the effect re-runs only when one of its dependencies changes, so a fist that is simply held triggers once, not once per cooldown. The model allows a reading at any time, which covers every schedule React can produce.
- The three.js text triangulation, `center()`, `computeBoundingBox()` and `dispose()`, and font loading. The triangle mesh is an input, and font loading is a boolean.
- `Math.random`, `Math.sqrt`, `Math.sin` and `Math.cos`. Each is an input with its range: the area draw is pre-scaled into [0, total), the root of the first barycentric draw and the second draw are in [0, 1), which the model widens to [0, 1] (`Geometry.HalfOpenDrawsReach` states what the half-open range reaches), and the turbulence is a vector in [-1, 1]^3 multiplied by 0.02.
- The lengths of cross products and the landmark distances. They are square roots given as `IsSqrt` witnesses rather than computed.
- IEEE-754 and `Float32Array` rounding. All arithmetic is on exact reals, and the NaN buffer of an empty mesh is the separate constructor `Buffer.AllNaN`.
- `ParticleField.SampleGlyphs` requires each glyph's triangle mesh to be non-empty. The triangulation of the seven texts is not modelled, and an empty mesh would yield an all-NaN buffer, which `ParticleField.BuildShapes` cannot hold because it stores finite reals.
- `ParticleField.DecimalString` is the decimal text of a natural number. JavaScript's `toString` agrees with it only below 10^21, where it switches to exponent notation, and only up to 2^53, where integers stop being exact. The countdown only reaches 0..5.
- Any convergence or stability claim about the spring. Only one step is modelled.
- Particle initialisation: random positions, speeds in [0.08, 0.14) and phases. Phases only feed the turbulence, which is an input.
- Rendering: instance matrices, the pulse, HSL colours, bloom and vignette, and the JSX overlays.
- MediaPipe model loading, the webcam, `requestAnimationFrame` scheduling, teardown, and the `performance.now()` timestamp given to the detector.
- The detector itself. A detection is either no hand or 21 landmarks with their distances. `HandTracking.WellFormed` requires the landmark count, which MediaPipe always delivers.
- `GameState` and `ParticleShape` in `types.ts`. They are declared but not used.

=== FILE: countdown.dfy ===
/** The countdown of the application: a number that a closed fist moves
    5, 4, 3, 2, 1, 0 and then back to 5, with a cooldown between two
    accepted fists. The step is the body of the game-logic effect, taken as a
    pure function of the previous state and one reading of the hand. */
module Countdown {

  /** The value the countdown starts from and returns to after 0. */
  const Start: int := 5

  /** Milliseconds that must pass, strictly, between two accepted fists. */
  const Cooldown: int := 1500

  /** The number on display and the clock time (ms) of the last accepted fist. */
  datatype State = State(currentNumber: int, lastFistTime: int)

  /** What the effect sees when it runs: whether tracking is ready, whether
      the hand is a fist, and the wall-clock time in milliseconds. */
  datatype Reading = Reading(isReady: bool, isFist: bool, now: int)

  /** The state the application starts in. */
  const Initial: State := State(Start, 0)

  predicate Valid(s: State)
  {
    0 <= s.currentNumber <= Start
  }

  /** A reading moves the countdown only when tracking is ready, the hand is
      a fist, and strictly more than the cooldown has passed. */
  predicate Accepts(s: State, rd: Reading)
  {
    rd.isReady && rd.isFist && rd.now - s.lastFistTime > Cooldown
  }

  /** The number after one accepted fist. */
  function Advance(n: int): int
  {
    if n > 0 then n - 1 else Start
  }

  function Step(s: State, rd: Reading): (t: State)
    ensures !rd.isReady || !rd.isFist ==> t == s
    ensures rd.now - s.lastFistTime <= Cooldown ==> t == s
    ensures t != s <==> Accepts(s, rd)
    ensures Accepts(s, rd) ==> t.lastFistTime == rd.now
    ensures Accepts(s, rd) && s.currentNumber > 0 ==> t.currentNumber == s.currentNumber - 1
    ensures Accepts(s, rd) && s.currentNumber == 0 ==> t.currentNumber == Start
    ensures Valid(s) ==> Valid(t)
  {
    if !rd.isReady || !rd.isFist then s
    else if rd.now - s.lastFistTime > Cooldown then State(Advance(s.currentNumber), rd.now)
    else s
  }

  /** The state after a sequence of readings, taken in order. Whatever the
      readings, a countdown in 0..5 stays in 0..5. */
  function Run(s: State, rs: seq<Reading>): (t: State)
    ensures Valid(s) ==> Valid(t)
    decreases |rs|
  {
    if |rs| == 0 then s else Run(Step(s, rs[0]), rs[1..])
  }

  /** The clock times of the readings that were accepted, in order. */
  function AcceptedTimes(s: State, rs: seq<Reading>): seq<int>
    decreases |rs|
  {
    if |rs| == 0 then []
    else if Accepts(s, rs[0]) then [rs[0].now] + AcceptedTimes(Step(s, rs[0]), rs[1..])
    else AcceptedTimes(Step(s, rs[0]), rs[1..])
  }

  /** The recorded time after a run is the last accepted time, or the
      recorded time before the run when nothing was accepted. */
  lemma {:induction false} RunRecordsLastAccepted(s: State, rs: seq<Reading>)
    ensures var ts := AcceptedTimes(s, rs);
      Run(s, rs).lastFistTime == if |ts| == 0 then s.lastFistTime else ts[|ts| - 1]
    decreases |rs|
  {
    if |rs| > 0 {
      RunRecordsLastAccepted(Step(s, rs[0]), rs[1..]);
    }
  }

  lemma InitialIsValid()
    ensures Valid(Initial)
    ensures Initial.currentNumber == 5 && Initial.lastFistTime == 0
  {
  }

  /** Every accepted time is one of the readings' times. */
  lemma {:induction false} AcceptedTimesAreReadings(s: State, rs: seq<Reading>)
    ensures |AcceptedTimes(s, rs)| <= |rs|
    ensures var ts := AcceptedTimes(s, rs);
      forall k :: 0 <= k < |ts| ==> exists i :: 0 <= i < |rs| && rs[i].now == ts[k]
    decreases |rs|
  {
    if |rs| > 0 {
      var s1 := Step(s, rs[0]);
      var tail := AcceptedTimes(s1, rs[1..]);
      var ts := AcceptedTimes(s, rs);
      AcceptedTimesAreReadings(s1, rs[1..]);
      forall k | 0 <= k < |ts|
        ensures exists i :: 0 <= i < |rs| && rs[i].now == ts[k]
      {
        var k' := if Accepts(s, rs[0]) then k - 1 else k;
        if k' < 0 {
          assert rs[0].now == ts[k];
        } else {
          assert ts[k] == tail[k'];
          var i :| 0 <= i < |rs[1..]| && rs[1..][i].now == tail[k'];
          assert rs[i + 1].now == ts[k];
        }
      }
    }
  }

  /** The cooldown: the first accepted fist comes strictly more than 1500 ms
      after the last one before the run, and any two consecutive accepted
      fists are strictly more than 1500 ms apart. */
  lemma {:induction false} CooldownSeparatesAccepted(s: State, rs: seq<Reading>)
    ensures var ts := AcceptedTimes(s, rs);
      && (|ts| > 0 ==> ts[0] - s.lastFistTime > Cooldown)
      && (forall i :: 0 <= i < |ts| - 1 ==> ts[i + 1] - ts[i] > Cooldown)
    decreases |rs|
  {
    if |rs| > 0 {
      var s1 := Step(s, rs[0]);
      CooldownSeparatesAccepted(s1, rs[1..]);
      if Accepts(s, rs[0]) {
        var tail := AcceptedTimes(s1, rs[1..]);
        var ts := [rs[0].now] + tail;
        assert AcceptedTimes(s, rs) == ts;
        forall i | 0 <= i < |ts| - 1
          ensures ts[i + 1] - ts[i] > Cooldown
        {
          if i > 0 {
            assert ts[i + 1] == tail[i] && ts[i] == tail[i - 1];
          }
        }
      }
    }
  }

  /** A held fist moves the countdown at most once per cooldown window: of
      readings whose times all lie in a window of 1501 ms (so that any two are
      at most 1500 ms apart), at most one is accepted. */
  lemma AtMostOnePerWindow(s: State, rs: seq<Reading>, from: int)
    requires forall i :: 0 <= i < |rs| ==> from < rs[i].now <= from + Cooldown + 1
    ensures |AcceptedTimes(s, rs)| <= 1
  {
    var ts := AcceptedTimes(s, rs);
    CooldownSeparatesAccepted(s, rs);
    AcceptedTimesAreReadings(s, rs);
    if |ts| > 0 {
      SpreadOfSpaced(ts);
      assert from < ts[0] && ts[|ts| - 1] <= from + Cooldown + 1;
    }
  }

  /** Times that are pairwise more than the cooldown apart spread over at
      least `(Cooldown + 1) * (count - 1)` milliseconds. */
  lemma {:induction false} SpreadOfSpaced(ts: seq<int>)
    requires |ts| > 0
    requires forall i :: 0 <= i < |ts| - 1 ==> ts[i + 1] - ts[i] > Cooldown
    ensures ts[|ts| - 1] - ts[0] >= (Cooldown + 1) * (|ts| - 1)
    decreases |ts|
  {
    if |ts| > 1 {
      var front := ts[..|ts| - 1];
      SpreadOfSpaced(front);
      assert front[|front| - 1] == ts[|ts| - 2];
    }
  }

  /** The countdown is a decrement modulo 6 on 0..5: 0 wraps to 5. */
  lemma AdvanceIsDecrementMod6(n: int)
    requires 0 <= n <= Start
    ensures Advance(n) == (n - 1) % 6
  {
  }

  /** The number after `k` accepted fists. */
  function AdvanceTimes(n: int, k: nat): int
    decreases k
  {
    if k == 0 then n else AdvanceTimes(Advance(n), k - 1)
  }

  /** After `k` accepted fists from a valid number `n`, the display shows
      `n - k` modulo 6. */
  lemma {:induction false} AdvanceTimesMod6(n: int, k: nat)
    requires 0 <= n <= Start
    ensures AdvanceTimes(n, k) == (n - k) % 6
    decreases k
  {
    if k > 0 {
      AdvanceIsDecrementMod6(n);
      AdvanceTimesMod6(Advance(n), k - 1);
      ModShift(n - 1 - (k - 1));
    }
  }

  lemma ModShift(a: int)
    ensures (a + 6) % 6 == a % 6
  {
  }

  /** Six accepted fists bring any valid number back to itself. */
  lemma SixAdvancesCycle(n: int)
    requires 0 <= n <= Start
    ensures AdvanceTimes(n, 6) == n
    ensures AdvanceTimes(Start, 1) == 4 && AdvanceTimes(Start, 2) == 3 && AdvanceTimes(Start, 3) == 2
    ensures AdvanceTimes(Start, 4) == 1 && AdvanceTimes(Start, 5) == 0 && AdvanceTimes(Start, 6) == Start
  {
    AdvanceTimesMod6(n, 6);
    AdvanceTimesMod6(Start, 1);
    AdvanceTimesMod6(Start, 2);
    AdvanceTimesMod6(Start, 3);
    AdvanceTimesMod6(Start, 4);
    AdvanceTimesMod6(Start, 5);
    AdvanceTimesMod6(Start, 6);
  }

  /** Only the number of accepted readings matters for the displayed number:
      after a run it has advanced once per accepted fist. */
  lemma {:induction false} RunAdvancesPerAccepted(s: State, rs: seq<Reading>)
    ensures Run(s, rs).currentNumber == AdvanceTimes(s.currentNumber, |AcceptedTimes(s, rs)|)
    decreases |rs|
  {
    if |rs| > 0 {
      var s1 := Step(s, rs[0]);
      RunAdvancesPerAccepted(s1, rs[1..]);
    }
  }

  /** The readings are all fists while ready, each arriving strictly more than
      the cooldown after the previous one (the first after `last`). */
  predicate Spaced(last: int, rs: seq<Reading>)
  {
    && (forall i :: 0 <= i < |rs| ==> rs[i].isReady && rs[i].isFist)
    && (|rs| > 0 ==> rs[0].now - last > Cooldown)
    && (forall i :: 0 < i < |rs| ==> rs[i].now - rs[i - 1].now > Cooldown)
  }

  /** Fists spaced by more than the cooldown are all accepted. */
  lemma {:induction false} SpacedAllAccepted(s: State, rs: seq<Reading>)
    requires Spaced(s.lastFistTime, rs)
    ensures |AcceptedTimes(s, rs)| == |rs|
    ensures Run(s, rs).lastFistTime == if |rs| == 0 then s.lastFistTime else rs[|rs| - 1].now
    decreases |rs|
  {
    if |rs| > 0 {
      var s1 := Step(s, rs[0]);
      assert s1.lastFistTime == rs[0].now;
      assert Spaced(s1.lastFistTime, rs[1..]) by {
        forall i | 0 < i < |rs[1..]|
          ensures rs[1..][i].now - rs[1..][i - 1].now > Cooldown
        {
          assert rs[1..][i] == rs[i + 1] && rs[1..][i - 1] == rs[i];
        }
      }
      SpacedAllAccepted(s1, rs[1..]);
      if |rs| > 1 {
        assert rs[1..][|rs[1..]| - 1] == rs[|rs| - 1];
      }
    }
  }

  /** Starting from the initial 5, six fists each more than 1500 ms apart
      show 4, 3, 2, 1, 0 and then 5 again. */
  lemma {:induction false} CountdownScenario(rs: seq<Reading>)
    requires |rs| == 6 && Spaced(Initial.lastFistTime, rs)
    ensures Run(Initial, rs[..1]).currentNumber == 4
    ensures Run(Initial, rs[..2]).currentNumber == 3
    ensures Run(Initial, rs[..3]).currentNumber == 2
    ensures Run(Initial, rs[..4]).currentNumber == 1
    ensures Run(Initial, rs[..5]).currentNumber == 0
    ensures Run(Initial, rs).currentNumber == 5
  {
    SixAdvancesCycle(Start);
    forall k | 1 <= k <= 6
      ensures Run(Initial, rs[..k]).currentNumber == AdvanceTimes(Start, k)
    {
      assert Spaced(Initial.lastFistTime, rs[..k]);
      SpacedAllAccepted(Initial, rs[..k]);
      RunAdvancesPerAccepted(Initial, rs[..k]);
    }
    assert rs[..6] == rs;
  }
}

=== FILE: geometry.dfy ===
/** Area-weighted sampling of points on a triangulated glyph outline.

    The triangle mesh of the rendered text, the lengths of the triangles'
    cross products (a square root) and the random draws are inputs; the
    model is the accumulation of areas, the prefix-sum scan that picks a
    triangle, the barycentric placement of a point inside it, and the layout
    of the output buffer. */
module Geometry {
  import opened Vectors

  datatype Triangle = Triangle(a: Vec3, b: Vec3, c: Vec3)

  /** The random numbers consumed by one sample: `r` is the uniform draw
      already scaled by the total area, `s` is the square root of the first
      barycentric draw and `r2` is the second. */
  datatype Draw = Draw(r: real, s: real, r2: real)

  /** The ranges the draws come from: a uniform number in [0, 1) times the
      total area lies in [0, total) (and is 0 when the total is 0); the
      barycentric draws and the root of the first lie in [0, 1), widened
      here to [0, 1]. */
  predicate ValidDraw(d: Draw, total: real)
  {
    0.0 <= d.r && (d.r < total || d.r == 0.0) && 0.0 <= d.s <= 1.0 && 0.0 <= d.r2 <= 1.0
  }

  /** `len` is the length of the cross product of the triangle's two edges
      from `a`, the value whose half is the triangle's area. */
  predicate IsCrossLength(t: Triangle, len: real)
  {
    IsSqrt(len, NormSq(Cross(Sub(t.b, t.a), Sub(t.c, t.a))))
  }

  predicate MeasuredMesh(mesh: seq<Triangle>, lens: seq<real>)
  {
    |lens| == |mesh| && forall i :: 0 <= i < |mesh| ==> IsCrossLength(mesh[i], lens[i])
  }

  function Area(len: real): real
  {
    len * 0.5
  }

  function Sum(s: seq<real>): real
  {
    if |s| == 0 then 0.0 else Sum(s[..|s| - 1]) + s[|s| - 1]
  }

  /** The accumulated area up to and including triangle `j`. */
  function Prefix(areas: seq<real>, j: int): real
    requires -1 <= j < |areas|
  {
    Sum(areas[..j + 1])
  }

  predicate NonNegative(areas: seq<real>)
  {
    forall i :: 0 <= i < |areas| ==> areas[i] >= 0.0
  }

  lemma {:induction false} SumNonNegative(s: seq<real>)
    requires NonNegative(s)
    ensures Sum(s) >= 0.0
    decreases |s|
  {
    if |s| > 0 {
      SumNonNegative(s[..|s| - 1]);
    }
  }

  lemma PrefixStep(areas: seq<real>, j: int)
    requires 0 <= j < |areas|
    ensures Prefix(areas, j) == Prefix(areas, j - 1) + areas[j]
  {
    assert areas[..j + 1][..j] == areas[..j];
  }

  /** With non-negative areas the prefix sums never decrease. */
  lemma {:induction false} PrefixMonotone(areas: seq<real>, i: int, j: int)
    requires NonNegative(areas)
    requires -1 <= i <= j < |areas|
    ensures Prefix(areas, i) <= Prefix(areas, j)
    decreases j - i
  {
    if i < j {
      PrefixStep(areas, j);
      PrefixMonotone(areas, i, j - 1);
    }
  }

  /** The area loop: one area per triangle, each half its cross-product
      length and so never negative, and the total their sum. */
  method AreaTable(mesh: seq<Triangle>, lens: seq<real>) returns (areas: seq<real>, total: real)
    requires MeasuredMesh(mesh, lens)
    ensures |areas| == |mesh|
    ensures forall i :: 0 <= i < |mesh| ==> areas[i] == Area(lens[i]) && areas[i] >= 0.0
    ensures total == Sum(areas)
    ensures total >= 0.0
  {
    areas := [];
    total := 0.0;
    var i := 0;
    while i < |mesh|
      invariant 0 <= i <= |mesh|
      invariant |areas| == i
      invariant forall k :: 0 <= k < i ==> areas[k] == Area(lens[k]) && areas[k] >= 0.0
      invariant total == Sum(areas)
    {
      var area := Area(lens[i]);
      assert (areas + [area])[..|areas|] == areas;
      areas := areas + [area];
      total := total + area;
      i := i + 1;
    }
    SumNonNegative(areas);
  }

  /** The scan reaches triangle `j`: the draw lies at or below the area
      accumulated up to it. */
  predicate Reaches(areas: seq<real>, r: real, j: int)
  {
    0 <= j < |areas| && r <= Prefix(areas, j)
  }

  /** `k` is what the scan returns for draw `r`: the least triangle the scan
      reaches, or 0 when it reaches none. */
  predicate IsSelection(areas: seq<real>, r: real, k: nat)
  {
    if exists j :: 0 <= j < |areas| && Reaches(areas, r, j) then
      Reaches(areas, r, k) && forall j :: 0 <= j < k ==> !Reaches(areas, r, j)
    else
      k == 0
  }

  /** The scan from triangle `j` on, with `acc` the area accumulated before it. */
  function ScanFrom(areas: seq<real>, r: real, j: nat, acc: real): (k: nat)
    requires j <= |areas| && acc == Prefix(areas, j - 1)
    requires forall i :: 0 <= i < j ==> !Reaches(areas, r, i)
    ensures IsSelection(areas, r, k)
    decreases |areas| - j
  {
    if j == |areas| then
      0
    else
      PrefixStep(areas, j);
      if r <= acc + areas[j] then
        assert Reaches(areas, r, j);
        j
      else ScanFrom(areas, r, j + 1, acc + areas[j])
  }

  /** The triangle chosen for draw `r`. */
  function Select(areas: seq<real>, r: real): (k: nat)
    ensures IsSelection(areas, r, k)
    ensures |areas| > 0 ==> k < |areas|
  {
    ScanFrom(areas, r, 0, 0.0)
  }

  /** The selection is determined by its characterisation. */
  lemma SelectionUnique(areas: seq<real>, r: real, k1: nat, k2: nat)
    requires IsSelection(areas, r, k1) && IsSelection(areas, r, k2)
    ensures k1 == k2
  {
  }

  /** A draw in (0, total] lands on a triangle whose cumulative interval
      contains it, which therefore has positive area: zero-area triangles
      are never chosen. */
  lemma SelectionHasArea(areas: seq<real>, r: real)
    requires NonNegative(areas)
    requires 0.0 < r <= Sum(areas)
    ensures var k := Select(areas, r);
      && k < |areas|
      && Prefix(areas, k - 1) < r <= Prefix(areas, k)
      && areas[k] > 0.0
  {
    var n := |areas|;
    if n > 0 {
      assert areas[..n] == areas;
      assert Reaches(areas, r, n - 1);
      var k := Select(areas, r);
      PrefixStep(areas, k);
      if k > 0 {
        assert !Reaches(areas, r, k - 1);
      }
    }
  }

  /** The scan picks a threshold: when the draw is at most the total, the
      triangles it reaches are exactly those from the chosen one on. */
  lemma ScanIsThreshold(areas: seq<real>, r: real)
    requires NonNegative(areas) && |areas| > 0 && r <= Sum(areas)
    ensures forall j :: 0 <= j < |areas| ==> (Reaches(areas, r, j) <==> Select(areas, r) <= j)
  {
    var n := |areas|;
    var k := Select(areas, r);
    assert areas[..n] == areas;
    assert Reaches(areas, r, n - 1);
    forall j | k <= j < n
      ensures Reaches(areas, r, j)
    {
      PrefixMonotone(areas, k, j);
    }
  }

  /** The barycentric weights of a sample. */
  datatype Weights = Weights(u: real, v: real, w: real)

  predicate Convex(wt: Weights)
  {
    wt.u >= 0.0 && wt.v >= 0.0 && wt.w >= 0.0 && wt.u + wt.v + wt.w == 1.0
  }

  /** The square-root barycentric transform: `s` stands for the square root
      of the first draw. */
  function BarycentricWeights(s: real, r2: real): (wt: Weights)
    ensures wt.u + wt.v + wt.w == 1.0
    ensures 0.0 <= s <= 1.0 && 0.0 <= r2 <= 1.0 ==> Convex(wt)
  {
    NonNegProduct(s, 1.0 - r2);
    NonNegProduct(s, r2);
    Weights(1.0 - s, s * (1.0 - r2), s * r2)
  }

  lemma NonNegProduct(a: real, b: real)
    ensures a >= 0.0 && b >= 0.0 ==> a * b >= 0.0
  {
  }

  /** Every point of the triangle is reachable: any convex weights are the
      transform of some pair of draws in [0, 1]. */
  lemma WeightsReachEveryPoint(wt: Weights)
    requires Convex(wt)
    ensures exists s, r2 :: 0.0 <= s <= 1.0 && 0.0 <= r2 <= 1.0 && BarycentricWeights(s, r2) == wt
  {
    var s := 1.0 - wt.u;
    if s == 0.0 {
      assert wt.v == 0.0 && wt.w == 0.0;
      assert BarycentricWeights(s, 0.0) == wt;
    } else {
      var r2 := wt.w / s;
      assert s == wt.v + wt.w;
      assert s * r2 == wt.w;
      assert s * (1.0 - r2) == wt.v;
      assert r2 <= 1.0 by {
        assert wt.w <= s;
        DivAtMostOne(wt.w, s);
      }
      assert BarycentricWeights(s, r2) == wt;
    }
  }

  /** The program's draws are half-open: `Math.random()` lies in [0, 1),
      so `s` and `r2` do too. Those draws give exactly the weights with
      `u > 0` whose `v` is positive unless `w` is 0: the edge from b to c and
      the edge from a to c, except a itself, are never sampled. */
  lemma HalfOpenDrawsReach(wt: Weights)
    requires Convex(wt)
    ensures (exists s, r2 :: 0.0 <= s < 1.0 && 0.0 <= r2 < 1.0 && BarycentricWeights(s, r2) == wt)
      <==> wt.u > 0.0 && (wt.v > 0.0 || wt.w == 0.0)
  {
    if wt.u > 0.0 && (wt.v > 0.0 || wt.w == 0.0) {
      var s := 1.0 - wt.u;
      if s == 0.0 {
        assert wt.v == 0.0 && wt.w == 0.0;
        assert BarycentricWeights(s, 0.0) == wt;
      } else {
        var r2 := wt.w / s;
        assert s == wt.v + wt.w;
        assert s * r2 == wt.w;
        assert s * (1.0 - r2) == wt.v;
        assert r2 < 1.0 by {
          assert wt.w < s;
          DivBelowOne(wt.w, s);
        }
        assert BarycentricWeights(s, r2) == wt;
      }
    }
    if exists s, r2 :: 0.0 <= s < 1.0 && 0.0 <= r2 < 1.0 && BarycentricWeights(s, r2) == wt {
      var s, r2 :| 0.0 <= s < 1.0 && 0.0 <= r2 < 1.0 && BarycentricWeights(s, r2) == wt;
      if s > 0.0 {
        PositiveProduct(s, 1.0 - r2);
      }
    }
  }

  lemma DivBelowOne(a: real, b: real)
    requires 0.0 <= a < b
    ensures 0.0 <= a / b < 1.0
  {
  }

  lemma PositiveProduct(a: real, b: real)
    requires a > 0.0 && b > 0.0
    ensures a * b > 0.0
  {
  }

  lemma DivAtMostOne(a: real, b: real)
    requires 0.0 <= a <= b && b > 0.0
    ensures 0.0 <= a / b <= 1.0
  {
  }

  /** One coordinate of `a * u + b * v + c * w`. */
  function Combine(a: real, b: real, c: real, wt: Weights): real
  {
    a * wt.u + b * wt.v + c * wt.w
  }

  /** The point `a * u + b * v + c * w` for the triangle's vertices. */
  function PointIn(t: Triangle, wt: Weights): Vec3
  {
    Vec3(Combine(t.a.x, t.b.x, t.c.x, wt), Combine(t.a.y, t.b.y, t.c.y, wt), Combine(t.a.z, t.b.z, t.c.z, wt))
  }

  function Min3(a: real, b: real, c: real): real
  {
    if a <= b && a <= c then a else if b <= c then b else c
  }

  function Max3(a: real, b: real, c: real): real
  {
    if a >= b && a >= c then a else if b >= c then b else c
  }

  lemma ConvexCombinationBetween(a: real, b: real, c: real, wt: Weights)
    requires Convex(wt)
    ensures Min3(a, b, c) <= Combine(a, b, c, wt) <= Max3(a, b, c)
  {
    CombineAtLeast(Min3(a, b, c), a, b, c, wt.u, wt.v, wt.w);
    CombineAtMost(Max3(a, b, c), a, b, c, wt.u, wt.v, wt.w);
  }

  lemma CombineAtLeast(lo: real, a: real, b: real, c: real, u: real, v: real, w: real)
    requires lo <= a && lo <= b && lo <= c
    requires u >= 0.0 && v >= 0.0 && w >= 0.0 && u + v + w == 1.0
    ensures lo <= a * u + b * v + c * w
  {
    TermwiseAtLeast(lo, a, b, c, u, v, w);
    Distribute(lo, u, v, w);
  }

  lemma CombineAtMost(hi: real, a: real, b: real, c: real, u: real, v: real, w: real)
    requires a <= hi && b <= hi && c <= hi
    requires u >= 0.0 && v >= 0.0 && w >= 0.0 && u + v + w == 1.0
    ensures a * u + b * v + c * w <= hi
  {
    TermwiseAtMost(hi, a, b, c, u, v, w);
    Distribute(hi, u, v, w);
  }

  lemma TermwiseAtLeast(lo: real, a: real, b: real, c: real, u: real, v: real, w: real)
    requires lo <= a && lo <= b && lo <= c
    requires u >= 0.0 && v >= 0.0 && w >= 0.0
    ensures lo * u + lo * v + lo * w <= a * u + b * v + c * w
  {
    ScaleBetween(lo, a, a, u);
    ScaleBetween(lo, b, b, v);
    ScaleBetween(lo, c, c, w);
    SumAtLeast(lo * u, lo * v, lo * w, a * u, b * v, c * w);
  }

  lemma TermwiseAtMost(hi: real, a: real, b: real, c: real, u: real, v: real, w: real)
    requires a <= hi && b <= hi && c <= hi
    requires u >= 0.0 && v >= 0.0 && w >= 0.0
    ensures a * u + b * v + c * w <= hi * u + hi * v + hi * w
  {
    ScaleBetween(a, a, hi, u);
    ScaleBetween(b, b, hi, v);
    ScaleBetween(c, c, hi, w);
    SumAtLeast(a * u, b * v, c * w, hi * u, hi * v, hi * w);
  }

  /** Termwise bounds add up (stated over plain numbers, so that the
      products it is applied to are treated as opaque terms). */
  lemma SumAtLeast(l1: real, l2: real, l3: real, x1: real, x2: real, x3: real)
    requires l1 <= x1 && l2 <= x2 && l3 <= x3
    ensures l1 + l2 + l3 <= x1 + x2 + x3
  {
  }

  lemma Distribute(x: real, u: real, v: real, w: real)
    requires u + v + w == 1.0
    ensures x * u + x * v + x * w == x
  {
    assert x * u + x * v + x * w == x * (u + v + w);
  }

  lemma ScaleBetween(lo: real, x: real, hi: real, k: real)
    requires lo <= x <= hi && k >= 0.0
    ensures lo * k <= x * k <= hi * k
  {
  }

  /** A convex combination stays inside the triangle's bounding box: each
      coordinate lies between the least and greatest of the vertices'. */
  lemma PointInBounds(t: Triangle, wt: Weights, c: nat)
    requires Convex(wt) && c < 3
    ensures InBox(t, c, Coord(PointIn(t, wt), c))
  {
    ConvexCombinationBetween(Coord(t.a, c), Coord(t.b, c), Coord(t.c, c), wt);
  }

  /** One sample: the triangle picked by the scan for the draw `r`, and the
      point of it that the draw's weights give. */
  function SamplePoint(mesh: seq<Triangle>, areas: seq<real>, d: Draw): Vec3
    requires |mesh| > 0 && |areas| == |mesh|
  {
    var k := Select(areas, d.r);
    PointIn(mesh[k], BarycentricWeights(d.s, d.r2))
  }

  /** Coordinate `c` of a point, `x`, lies between the least and greatest of
      that coordinate over the triangle's vertices. */
  predicate InBox(t: Triangle, c: nat, x: real)
    requires c < 3
  {
    Min3(Coord(t.a, c), Coord(t.b, c), Coord(t.c, c)) <= x <= Max3(Coord(t.a, c), Coord(t.b, c), Coord(t.c, c))
  }

  /** Coordinate `c` of sample `i` of the buffer lies in the bounding box of
      some triangle of the mesh. */
  predicate OnSomeTriangle(mesh: seq<Triangle>, coords: seq<real>, i: nat, c: nat)
    requires c < 3 && 3 * i + c < |coords|
  {
    exists k :: 0 <= k < |mesh| && InBox(mesh[k], c, coords[3 * i + c])
  }

  /** A sample lies in the bounding box of the triangle the scan picked. */
  lemma SampleInsidePickedTriangle(mesh: seq<Triangle>, areas: seq<real>, d: Draw, c: nat)
    requires |mesh| > 0 && |areas| == |mesh| && c < 3
    requires ValidDraw(d, Sum(areas))
    ensures Select(areas, d.r) < |mesh|
    ensures InBox(mesh[Select(areas, d.r)], c, Coord(SamplePoint(mesh, areas, d), c))
  {
    var k := Select(areas, d.r);
    var wt := BarycentricWeights(d.s, d.r2);
    assert SamplePoint(mesh, areas, d) == PointIn(mesh[k], wt);
    PointInBounds(mesh[k], wt, c);
  }

  /** When the mesh has area, a positive draw lands on a triangle of
      positive area. */
  lemma SamplePicksPositiveArea(areas: seq<real>, d: Draw)
    requires NonNegative(areas) && ValidDraw(d, Sum(areas))
    requires d.r > 0.0
    ensures Select(areas, d.r) < |areas| && areas[Select(areas, d.r)] > 0.0
  {
    SelectionHasArea(areas, d.r);
  }

  /** A zero draw, which `Math.random()` can return, takes the first
      triangle whatever its area: the scan stops at the first accumulated
      area that is at least 0. */
  lemma ZeroDrawTakesFirst(areas: seq<real>)
    requires NonNegative(areas) && |areas| > 0
    ensures Select(areas, 0.0) == 0
  {
    PrefixStep(areas, 0);
    assert Reaches(areas, 0.0, 0);
  }

  /** The output buffer. `AllNaN` stands for a buffer of that length every
      slot of which holds NaN, which is what a mesh without triangles
      produces: reading vertex 0 of an empty position attribute yields
      undefined coordinates. */
  datatype Buffer = Finite(coords: seq<real>) | AllNaN(length: nat)
  {
    function Length(): nat
    {
      match this
      case Finite(coords) => |coords|
      case AllNaN(length) => length
    }
  }

  /** The areas of a measured mesh, one per triangle. */
  function Areas(lens: seq<real>): (areas: seq<real>)
    ensures |areas| == |lens|
  {
    seq(|lens|, i requires 0 <= i < |lens| => Area(lens[i]))
  }

  /** The sampler: a buffer of three coordinates per draw, sample `i` held in
      slots `3i`, `3i+1`, `3i+2`, each sample inside a triangle of the mesh. */
  method SampleText(mesh: seq<Triangle>, lens: seq<real>, draws: seq<Draw>) returns (buf: Buffer)
    requires MeasuredMesh(mesh, lens)
    ensures buf.Length() == 3 * |draws|
    ensures buf.AllNaN? <==> |mesh| == 0 && |draws| > 0
    ensures buf.Finite? ==> forall i, c :: 0 <= i < |draws| && 0 <= c < 3 ==>
      buf.coords[3 * i + c] == Coord(SamplePoint(mesh, Areas(lens), draws[i]), c)
    ensures buf.Finite? ==> forall i, c :: 0 <= i < |draws| && 0 <= c < 3 && ValidDraw(draws[i], Sum(Areas(lens))) ==>
      OnSomeTriangle(mesh, buf.coords, i, c)
  {
    var areas, total := AreaTable(mesh, lens);
    assert areas == Areas(lens);
    if |draws| == 0 {
      return Finite([]);
    }
    if |mesh| == 0 {
      return AllNaN(3 * |draws|);
    }
    var coords := seq(3 * |draws|, _ => 0.0);
    var i := 0;
    while i < |draws|
      invariant 0 <= i <= |draws|
      invariant |coords| == 3 * |draws|
      invariant forall j, c :: 0 <= j < i && 0 <= c < 3 ==>
        coords[3 * j + c] == Coord(SamplePoint(mesh, areas, draws[j]), c)
      invariant forall k :: 3 * i <= k < |coords| ==> coords[k] == 0.0
    {
      var p := SamplePoint(mesh, areas, draws[i]);
      coords := coords[3 * i := p.x][3 * i + 1 := p.y][3 * i + 2 := p.z];
      i := i + 1;
    }
    buf := Finite(coords);
    forall j, c | 0 <= j < |draws| && 0 <= c < 3 && ValidDraw(draws[j], Sum(areas))
      ensures OnSomeTriangle(mesh, coords, j, c)
    {
      SampleInsidePickedTriangle(mesh, areas, draws[j], c);
    }
  }
}

=== FILE: hand_tracking.dfy ===
/** The pure part of the hand tracker's per-frame prediction: skipping a
    frame the video has not advanced past, mirroring the palm position, the
    scale-relative fist test, and the update of the hand reading.

    The landmark detector is an input: each frame supplies either no hand or
    the 21 landmarks of one hand, together with the square roots the test
    needs (the four wrist-to-fingertip distances and the wrist-to-palm
    distance). */
module HandTracking {
  import opened Types
  import opened Vectors

  /** A landmark in the detector's normalised image coordinates. */
  datatype Landmark = Landmark(x: real, y: real, z: real)

  /** Number of landmarks in one hand skeleton. */
  const LandmarkCount: nat := 21
  const Wrist: nat := 0
  /** The base of the middle finger, taken as the palm centre. */
  const PalmCentre: nat := 9
  /** Tips of the index, middle, ring and little fingers. */
  const Tips: seq<nat> := [8, 12, 16, 20]
  /** A hand is a fist when the mean tip distance is below this multiple of
      the wrist-to-palm distance. */
  const FistRatio: real := 1.8

  /** The reading before any frame has been processed. */
  const InitialHand: HandData := HandData(0.5, 0.5, false, false)

  function Dist3Sq(p: Landmark, q: Landmark): real
  {
    (p.x - q.x) * (p.x - q.x) + (p.y - q.y) * (p.y - q.y) + (p.z - q.z) * (p.z - q.z)
  }

  /** The wrist-to-palm scale uses x and y only. */
  function Dist2Sq(p: Landmark, q: Landmark): real
  {
    (p.x - q.x) * (p.x - q.x) + (p.y - q.y) * (p.y - q.y)
  }

  /** The square roots the fist test takes: one distance per fingertip of
      `Tips`, and the hand scale. */
  datatype Measurements = Measurements(tipDistances: seq<real>, handScale: real)

  /** `m` holds the true distances of the skeleton `lm`. */
  predicate Measures(lm: seq<Landmark>, m: Measurements)
  {
    && |lm| == LandmarkCount
    && |m.tipDistances| == |Tips|
    && (forall i :: 0 <= i < |Tips| ==> IsSqrt(m.tipDistances[i], Dist3Sq(lm[Tips[i]], lm[Wrist])))
    && IsSqrt(m.handScale, Dist2Sq(lm[PalmCentre], lm[Wrist]))
  }

  /** The mean of the four tip distances, summed in order and divided by 4. */
  function MeanTipDistance(d: seq<real>): real
    requires |d| == 4
  {
    ((((0.0 + d[0]) + d[1]) + d[2]) + d[3]) / 4.0
  }

  function IsFist(m: Measurements): bool
    requires |m.tipDistances| == 4
  {
    MeanTipDistance(m.tipDistances) < m.handScale * FistRatio
  }

  /** What the detector reports for one frame. */
  datatype Detection = NoHand | Hand(landmarks: seq<Landmark>, m: Measurements)

  predicate WellFormed(det: Detection)
  {
    det.Hand? ==> Measures(det.landmarks, det.m)
  }

  /** The webcam image is mirrored for the user. */
  function Mirror(x: real): real
  {
    1.0 - x
  }

  /** The reading after a processed frame: a detected hand sets every field
      from the palm landmark and the fist test; a frame without a hand
      keeps the previous reading except that the hand is no longer present. */
  function Detect(prev: HandData, det: Detection): (h: HandData)
    requires WellFormed(det)
    ensures det.NoHand? ==> h.x == prev.x && h.y == prev.y && h.isFist == prev.isFist && !h.isPresent
    ensures det.Hand? ==> h.isPresent
    ensures det.Hand? ==> Mirror(h.x) == det.landmarks[PalmCentre].x && h.y == det.landmarks[PalmCentre].y
    ensures det.Hand? ==> (h.isFist <==> MeanTipDistance(det.m.tipDistances) < FistRatio * det.m.handScale)
  {
    match det
    case NoHand => prev.(isPresent := false)
    case Hand(lm, m) =>
      HandData(Mirror(lm[PalmCentre].x), lm[PalmCentre].y, IsFist(m), true)
  }

  /** The tracker's state between frames: the published reading and the
      video time of the last processed frame (initially -1). */
  datatype Tracker = Tracker(hand: HandData, lastVideoTime: real)

  const InitialTracker: Tracker := Tracker(InitialHand, -1.0)

  /** One call of the prediction loop for a frame at `videoTime`. */
  function Predict(t: Tracker, videoTime: real, det: Detection): (t': Tracker)
    requires videoTime != t.lastVideoTime ==> WellFormed(det)
    ensures videoTime == t.lastVideoTime ==> t' == t
    ensures videoTime != t.lastVideoTime ==> t'.lastVideoTime == videoTime && t'.hand == Detect(t.hand, det)
  {
    if videoTime == t.lastVideoTime then t
    else Tracker(Detect(t.hand, det), videoTime)
  }

  /** A video's time is never negative, so the tracker's start value -1
      makes the very first frame count as new. */
  lemma FirstFrameProcessed(videoTime: real, det: Detection)
    requires videoTime >= 0.0 && WellFormed(det)
    ensures Predict(InitialTracker, videoTime, det).lastVideoTime == videoTime
    ensures Predict(InitialTracker, videoTime, det).hand == Detect(InitialHand, det)
  {
  }

  lemma InitialReading()
    ensures InUnitSquare(InitialHand) && !InitialHand.isPresent && !InitialHand.isFist
    ensures InitialHand.x == 0.5 && InitialHand.y == 0.5
  {
  }

  /** Mirroring is its own inverse and keeps a coordinate in [0, 1]. */
  lemma MirrorInvolution(x: real)
    ensures Mirror(Mirror(x)) == x
    ensures 0.0 <= x <= 1.0 <==> 0.0 <= Mirror(x) <= 1.0
  {
  }

  /** The fist test compares the sum of the four tip distances with 7.2
      times the hand scale: the mean against 1.8 times it. */
  lemma FistIsSumThreshold(m: Measurements)
    requires |m.tipDistances| == 4
    ensures var d := m.tipDistances;
      IsFist(m) <==> d[0] + d[1] + d[2] + d[3] < 7.2 * m.handScale
  {
  }

  /** A frame whose video time equals the last processed one changes
      nothing, so presenting the same frame again is idempotent. */
  lemma PredictSameFrameIdempotent(t: Tracker, videoTime: real, det: Detection, det2: Detection)
    requires WellFormed(det)
    ensures Predict(Predict(t, videoTime, det), videoTime, det2) == Predict(t, videoTime, det)
  {
  }

  /** The published position stays in the unit square as long as the
      detector reports the palm inside the image. */
  lemma PredictKeepsUnitSquare(t: Tracker, videoTime: real, det: Detection)
    requires InUnitSquare(t.hand)
    requires videoTime != t.lastVideoTime ==> WellFormed(det)
    requires det.Hand? && |det.landmarks| == LandmarkCount ==>
      0.0 <= det.landmarks[PalmCentre].x <= 1.0 && 0.0 <= det.landmarks[PalmCentre].y <= 1.0
    ensures InUnitSquare(Predict(t, videoTime, det).hand)
  {
  }

  function ScaleLandmark(p: Landmark, k: real): Landmark
  {
    Landmark(p.x * k, p.y * k, p.z * k)
  }

  function TranslateLandmark(p: Landmark, d: Vec3): Landmark
  {
    Landmark(p.x + d.x, p.y + d.y, p.z + d.z)
  }

  lemma SquaredDifferenceScale(a: real, b: real, k: real)
    ensures (a * k - b * k) * (a * k - b * k) == k * k * ((a - b) * (a - b))
  {
    assert a * k - b * k == (a - b) * k;
  }

  lemma ScaledDistances(p: Landmark, q: Landmark, k: real)
    ensures Dist3Sq(ScaleLandmark(p, k), ScaleLandmark(q, k)) == k * k * Dist3Sq(p, q)
    ensures Dist2Sq(ScaleLandmark(p, k), ScaleLandmark(q, k)) == k * k * Dist2Sq(p, q)
  {
    SquaredDifferenceScale(p.x, q.x, k);
    SquaredDifferenceScale(p.y, q.y, k);
    SquaredDifferenceScale(p.z, q.z, k);
    var dx, dy, dz := (p.x - q.x) * (p.x - q.x), (p.y - q.y) * (p.y - q.y), (p.z - q.z) * (p.z - q.z);
    Distribute3(k * k, dx, dy, dz);
    var p', q' := ScaleLandmark(p, k), ScaleLandmark(q, k);
    assert Dist3Sq(p', q') == k * k * dx + k * k * dy + k * k * dz;
    assert Dist2Sq(p', q') == k * k * dx + k * k * dy;
  }

  lemma Distribute3(c: real, a: real, b: real, d: real)
    ensures c * a + c * b + c * d == c * (a + b + d)
    ensures c * a + c * b == c * (a + b)
  {
  }

  /** Scaling every measured distance by `k > 0` scales the mean by `k` and
      leaves the comparison unchanged. */
  lemma ScaledComparison(d: seq<real>, hs: real, d': seq<real>, hs': real, k: real)
    requires |d| == 4 && |d'| == 4 && k > 0.0
    requires forall i :: 0 <= i < 4 ==> d'[i] == k * d[i]
    requires hs' == k * hs
    ensures MeanTipDistance(d') < hs' * FistRatio <==> MeanTipDistance(d) < hs * FistRatio
  {
    var mean := MeanTipDistance(d);
    assert MeanTipDistance(d') == k * mean by {
      Distribute4(k, d[0], d[1], d[2], d[3]);
    }
    assert hs' * FistRatio == k * (hs * FistRatio);
    MultiplyPreservesLess(mean, hs * FistRatio, k);
  }

  lemma Distribute4(k: real, a: real, b: real, c: real, d: real)
    ensures ((((0.0 + k * a) + k * b) + k * c) + k * d) / 4.0 == k * (((((0.0 + a) + b) + c) + d) / 4.0)
  {
  }

  lemma MultiplyPreservesLess(a: real, b: real, k: real)
    requires k > 0.0
    ensures k * a < k * b <==> a < b
  {
    if a < b {
      assert k * b - k * a == k * (b - a);
    } else {
      assert k * a - k * b == k * (a - b);
    }
  }

  /** The distance from the camera does not decide the gesture: scaling
      every landmark coordinate by any `k > 0` leaves the fist test
      unchanged. */
  lemma FistScaleInvariant(lm: seq<Landmark>, m: Measurements, k: real, m': Measurements)
    requires k > 0.0
    requires Measures(lm, m)
    requires Measures(seq(|lm|, i requires 0 <= i < |lm| => ScaleLandmark(lm[i], k)), m')
    ensures IsFist(m') == IsFist(m)
  {
    var lm' := seq(|lm|, i requires 0 <= i < |lm| => ScaleLandmark(lm[i], k));
    forall i | 0 <= i < 4
      ensures m'.tipDistances[i] == k * m.tipDistances[i]
    {
      var tip := Tips[i];
      ScaledDistances(lm[tip], lm[Wrist], k);
      SqrtScale(m.tipDistances[i], Dist3Sq(lm[tip], lm[Wrist]), k);
      SqrtUnique(m'.tipDistances[i], k * m.tipDistances[i], Dist3Sq(lm'[tip], lm'[Wrist]));
    }
    ScaledDistances(lm[PalmCentre], lm[Wrist], k);
    SqrtScale(m.handScale, Dist2Sq(lm[PalmCentre], lm[Wrist]), k);
    SqrtUnique(m'.handScale, k * m.handScale, Dist2Sq(lm'[PalmCentre], lm'[Wrist]));
    ScaledComparison(m.tipDistances, m.handScale, m'.tipDistances, m'.handScale, k);
  }

  lemma TranslatedDistances(p: Landmark, q: Landmark, d: Vec3)
    ensures Dist3Sq(TranslateLandmark(p, d), TranslateLandmark(q, d)) == Dist3Sq(p, q)
    ensures Dist2Sq(TranslateLandmark(p, d), TranslateLandmark(q, d)) == Dist2Sq(p, q)
  {
    var p', q' := TranslateLandmark(p, d), TranslateLandmark(q, d);
    assert p'.x - q'.x == p.x - q.x && p'.y - q'.y == p.y - q.y && p'.z - q'.z == p.z - q.z;
  }

  /** Moving the whole hand within the image does not decide the gesture
      either: translating every landmark leaves the fist test unchanged. */
  lemma FistTranslationInvariant(lm: seq<Landmark>, m: Measurements, d: Vec3, m': Measurements)
    requires Measures(lm, m)
    requires Measures(seq(|lm|, i requires 0 <= i < |lm| => TranslateLandmark(lm[i], d)), m')
    ensures IsFist(m') == IsFist(m)
  {
    var lm' := seq(|lm|, i requires 0 <= i < |lm| => TranslateLandmark(lm[i], d));
    forall i | 0 <= i < 4
      ensures m'.tipDistances[i] == m.tipDistances[i]
    {
      var tip := Tips[i];
      TranslatedDistances(lm[tip], lm[Wrist], d);
      SqrtUnique(m'.tipDistances[i], m.tipDistances[i], Dist3Sq(lm[tip], lm[Wrist]));
    }
    TranslatedDistances(lm[PalmCentre], lm[Wrist], d);
    SqrtUnique(m'.handScale, m.handScale, Dist2Sq(lm[PalmCentre], lm[Wrist]));
    assert m'.tipDistances == m.tipDistances;
  }
}

=== FILE: particle_field.dfy ===
/** The per-frame update of the particle field: for each particle the
    target point is looked up in the sampled glyph of the current countdown
    value, imploded while a fist is held, scaled per glyph and offset by the
    hand's position; then one damped spring step moves the particle.

    The sine/cosine turbulence is an input: one vector per particle with
    each component in [-1, 1], which the step multiplies by the noise
    amplitude. */
module ParticleField {
  import opened Types
  import opened Vectors
  import Countdown
  import Geometry

  /** Number of particles, and number of points sampled per glyph. */
  const ParticleCount: nat := 9000
  /** Factor applied to the glyph while a fist is held. */
  const Implosion: real := 0.1
  /** Scale of the two-line celebration glyph shown at 0. */
  const HappyScale: real := 0.55
  /** Scale of the single digits. */
  const DigitScale: real := 1.1
  /** Velocity is multiplied by this every frame. */
  const Damping: real := 0.9
  /** Amplitude of the turbulence added to the spring force. */
  const NoiseAmplitude: real := 0.02

  /** Key of the celebration glyph, whose text is "Happy", a line break
      and " 2026". */
  const HappyKey: string := "happy"

  // ---------------------------------------------------------------------
  // Shape keys: the decimal text of the countdown value, or "happy".
  // ---------------------------------------------------------------------

  predicate IsDigit(ch: char)
  {
    '0' <= ch <= '9'
  }

  predicate AllDigits(s: string)
  {
    forall i :: 0 <= i < |s| ==> IsDigit(s[i])
  }

  function DigitChar(d: nat): char
    requires d < 10
  {
    ['0', '1', '2', '3', '4', '5', '6', '7', '8', '9'][d]
  }

  function DigitValue(ch: char): nat
    requires IsDigit(ch)
  {
    (ch as int - '0' as int) as nat
  }

  /** A decimal numeral as `toString` writes it: at least one digit and no
      leading zero unless the numeral is "0" itself. */
  predicate Canonical(s: string)
  {
    |s| > 0 && AllDigits(s) && (|s| == 1 || s[0] != '0')
  }

  /** The decimal text of a non-negative integer, without leading zeros
      (what `Number.prototype.toString` gives for integers below 10^21; it
      switches to exponent notation from there on). */
  function DecimalString(n: nat): (s: string)
    ensures Canonical(s)
    ensures n >= 10 ==> s[0] != '0'
    decreases n
  {
    if n < 10 then [DigitChar(n)] else DecimalString(n / 10) + [DigitChar(n % 10)]
  }

  /** Reads a string of digits as a decimal number. */
  function ParseDecimal(s: string): nat
    requires AllDigits(s)
    decreases |s|
  {
    if |s| == 0 then 0 else ParseDecimal(s[..|s| - 1]) * 10 + DigitValue(s[|s| - 1])
  }

  /** Printing and reading back a number gives the number. */
  lemma {:induction false} DecimalRoundTrip(n: nat)
    ensures ParseDecimal(DecimalString(n)) == n
    decreases n
  {
    var s := DecimalString(n);
    if n >= 10 {
      DecimalRoundTrip(n / 10);
      assert s[..|s| - 1] == DecimalString(n / 10);
    }
  }

  /** Reading a numeral without a leading zero gives a positive number. */
  lemma {:induction false} LeadingDigitPositive(s: string)
    requires |s| > 0 && AllDigits(s) && s[0] != '0'
    ensures ParseDecimal(s) >= 1
    decreases |s|
  {
    if |s| > 1 {
      var init := s[..|s| - 1];
      assert init[0] == s[0];
      LeadingDigitPositive(init);
    } else {
      assert s[..0] == [];
    }
  }

  lemma DigitCharValue(ch: char)
    requires IsDigit(ch)
    ensures DigitValue(ch) < 10 && DigitChar(DigitValue(ch)) == ch
  {
  }

  /** Every canonical numeral is the printed form of the number it reads
      as: the other half of the round trip. */
  lemma {:induction false} CanonicalRoundTrip(s: string)
    requires Canonical(s)
    ensures DecimalString(ParseDecimal(s)) == s
    decreases |s|
  {
    var n := ParseDecimal(s);
    var last := s[|s| - 1];
    DigitCharValue(last);
    if |s| == 1 {
      assert s[..0] == [];
      assert ParseDecimal(s[..0]) == 0;
      assert n == DigitValue(last);
      assert s == [last];
    } else {
      var init := s[..|s| - 1];
      assert init[0] == s[0];
      assert Canonical(init);
      LeadingDigitPositive(init);
      var m := ParseDecimal(init);
      var d := DigitValue(last);
      assert n == m * 10 + d;
      assert n / 10 == m && n % 10 == d;
      CanonicalRoundTrip(init);
      assert s == init + [last];
    }
  }

  /** Two canonical numerals that read as the same number are the same
      string, so a key is determined by the number it denotes. */
  lemma CanonicalUnique(s: string, t: string)
    requires Canonical(s) && Canonical(t) && ParseDecimal(s) == ParseDecimal(t)
    ensures s == t
  {
    CanonicalRoundTrip(s);
    CanonicalRoundTrip(t);
  }

  /** The key of the glyph shown for a countdown value. */
  function ShapeKey(targetNumber: int): (key: string)
    ensures targetNumber <= 0 <==> key == HappyKey
    ensures targetNumber > 0 ==> Canonical(key) && ParseDecimal(key) == targetNumber
  {
    if targetNumber <= 0 then HappyKey
    else
      DecimalRoundTrip(targetNumber);
      assert !AllDigits(HappyKey) by { assert !IsDigit(HappyKey[0]); }
      DecimalString(targetNumber)
  }

  /** The keys of the glyphs sampled once the font is loaded, in sampling
      order: the digits 5 down to 0, each keyed by its own text, then the
      celebration message. */
  const GlyphKeys: seq<string> := ["5", "4", "3", "2", "1", "0", HappyKey]

  /** The shape table from the sampled buffers, one per entry of
      `GlyphKeys` and in that order; empty while the font is not loaded. */
  function BuildShapes(fontLoaded: bool, buffers: seq<seq<real>>): (shapes: map<string, seq<real>>)
    requires |buffers| == |GlyphKeys|
    ensures !fontLoaded ==> shapes == map[]
    ensures fontLoaded ==> shapes.Keys == {"0", "1", "2", "3", "4", "5", HappyKey}
    ensures fontLoaded ==> forall i :: 0 <= i < |GlyphKeys| ==> shapes[GlyphKeys[i]] == buffers[i]
    ensures forall k :: k in shapes ==> exists i :: 0 <= i < |GlyphKeys| && GlyphKeys[i] == k && shapes[k] == buffers[i]
  {
    if !fontLoaded then map[]
    else map["5" := buffers[0], "4" := buffers[1], "3" := buffers[2], "2" := buffers[3],
             "1" := buffers[4], "0" := buffers[5], HappyKey := buffers[6]]
  }

  /** Every value the countdown can take has a glyph once the font is
      loaded. */
  lemma EveryCountdownValueHasGlyph(s: Countdown.State, buffers: seq<seq<real>>)
    requires Countdown.Valid(s) && |buffers| == |GlyphKeys|
    ensures ShapeKey(s.currentNumber) in BuildShapes(true, buffers)
  {
    var n := s.currentNumber;
    if n > 0 {
      var digit := [DigitChar(n)];
      assert Canonical(digit) && ParseDecimal(digit) == n by {
        assert digit[..0] == [];
      }
      CanonicalUnique(ShapeKey(n), digit);
      assert digit in {"1", "2", "3", "4", "5"};
    }
  }

  /** The digit "0" is sampled but never looked up, since 0 shows "happy". */
  lemma ZeroNeverLookedUp(n: int)
    ensures ShapeKey(n) != "0"
  {
    assert ParseDecimal("0") == 0;
  }

  // ---------------------------------------------------------------------
  // Target of one particle.
  // ---------------------------------------------------------------------

  /** Index of the first coordinate of the point particle `i` targets in a
      buffer of `len` coordinates: the particle index wraps around the
      number of points. */
  function WrappedIndex(i: nat, len: nat): (idx3: nat)
    requires len > 0 && len % 3 == 0
    ensures idx3 % 3 == 0 && idx3 + 2 < len
    ensures i < len / 3 ==> idx3 == 3 * i
  {
    (i % (len / 3)) * 3
  }

  /** Particles a whole number of point-counts apart share a target point. */
  lemma WrappedIndexPeriodic(i: nat, len: nat)
    requires len > 0 && len % 3 == 0
    ensures WrappedIndex(i + len / 3, len) == WrappedIndex(i, len)
  {
    var n := len / 3;
    assert (i + n) % n == i % n by {
      ModAddPeriod(i, n);
    }
  }

  lemma ModAddPeriod(i: nat, n: nat)
    requires n > 0
    ensures (i + n) % n == i % n
  {
    ModUnique(i + n, n, i / n + 1, i % n);
  }

  /** Euclidean division is unique: a quotient and a remainder in range
      are the ones `/` and `%` give. */
  lemma ModUnique(a: int, n: int, q: int, r: int)
    requires n > 0 && 0 <= r < n && a == q * n + r
    ensures a % n == r
  {
    var q0 := a / n;
    var r0 := a % n;
    assert a == q0 * n + r0;
    assert (q - q0) * n == r0 - r;
    if q > q0 {
      MulAtLeast(q - q0, n);
    } else if q < q0 {
      MulAtLeast(q0 - q, n);
    }
  }

  lemma MulAtLeast(k: int, n: int)
    requires k >= 1 && n > 0
    ensures k * n >= n
  {
  }

  /** With one sampled point per particle, particle `i` targets point `i`. */
  lemma WrappedIndexIdentity(i: nat, len: nat)
    requires len == 3 * ParticleCount && i < ParticleCount
    ensures WrappedIndex(i, len) == 3 * i
  {
  }

  /** The point at a coordinate index of a buffer. */
  function PointAt(buf: seq<real>, idx3: nat): Vec3
    requires idx3 + 2 < |buf|
  {
    Vec3(buf[idx3], buf[idx3 + 1], buf[idx3 + 2])
  }

  /** The glyph point pulled towards the origin while a fist is held over a
      digit. */
  function Implode(p: Vec3, isFist: bool, targetNumber: int): (q: Vec3)
    ensures isFist && targetNumber > 0 ==> q == Scale(p, Implosion) && NormSq(q) == NormSq(p) / 100.0
    ensures !(isFist && targetNumber > 0) ==> q == p
  {
    if isFist && targetNumber > 0 then Scale(p, Implosion) else p
  }

  /** The glyph scale: the two-line message is shown at half the digits'
      size so both stand about 8.8 units tall. */
  function GlyphScale(targetNumber: int): (scale: real)
    ensures scale == HappyScale <==> targetNumber == 0
    ensures scale == DigitScale <==> targetNumber != 0
  {
    if targetNumber == 0 then HappyScale else DigitScale
  }

  /** For every countdown value the glyph and its scale agree: the
      celebration glyph is drawn exactly when its scale is used. */
  lemma GlyphAndScaleAgree(s: Countdown.State)
    requires Countdown.Valid(s)
    ensures ShapeKey(s.currentNumber) == HappyKey <==> GlyphScale(s.currentNumber) == HappyScale
  {
  }

  datatype Viewport = Viewport(width: real, height: real)

  /** The hand position in world units: normalised [0, 1] mapped onto the
      viewport around its centre, with y pointing up; the centre when no
      hand is present. */
  function HandOffset(hand: HandData, vp: Viewport): (off: Vec3)
    ensures !hand.isPresent ==> off == Zero
    ensures off.z == 0.0
  {
    if hand.isPresent then
      Vec3((hand.x - 0.5) * vp.width, -(hand.y - 0.5) * vp.height, 0.0)
    else
      Zero
  }

  /** A hand at the centre of the image places the glyph at the origin. */
  lemma CentredHandNoOffset(hand: HandData, vp: Viewport)
    requires hand.x == 0.5 && hand.y == 0.5
    ensures HandOffset(hand, vp) == Zero
  {
  }

  /** The offset determines the hand position back: it is the inverse of
      the mapping from world units to normalised coordinates. */
  lemma HandOffsetInverse(hand: HandData, vp: Viewport)
    requires hand.isPresent && vp.width > 0.0 && vp.height > 0.0
    ensures HandOffset(hand, vp).x / vp.width + 0.5 == hand.x
    ensures 0.5 - HandOffset(hand, vp).y / vp.height == hand.y
  {
    var off := HandOffset(hand, vp);
    DivideBack(hand.x - 0.5, vp.width, off.x);
    DivideBack(-(hand.y - 0.5), vp.height, off.y);
  }

  lemma DivideBack(a: real, w: real, o: real)
    requires w > 0.0 && o == a * w
    ensures o / w == a
  {
  }

  /** The particle's state. `target` persists between frames: it is kept
      when the current glyph has no buffer. */
  datatype Particle = Particle(pos: Vec3, vel: Vec3, target: Vec3, speed: real)

  /** What every particle's target depends on in one frame. */
  datatype Frame = Frame(hand: HandData, targetNumber: int, vp: Viewport)

  /** Every buffer of the shape table holds whole points. */
  predicate WholePoints(shapes: map<string, seq<real>>)
  {
    forall k :: k in shapes ==> |shapes[k]| > 0 && |shapes[k]| % 3 == 0
  }

  /** The target of particle `i`: offset plus the (imploded) glyph point
      times the glyph scale, or the previous target if the glyph of the
      current value has no buffer. */
  function ParticleTarget(p: Particle, i: nat, shapes: map<string, seq<real>>, f: Frame): (t: Vec3)
    requires WholePoints(shapes)
    ensures ShapeKey(f.targetNumber) !in shapes ==> t == p.target
    ensures ShapeKey(f.targetNumber) in shapes ==>
      var buf := shapes[ShapeKey(f.targetNumber)];
      var local := Implode(PointAt(buf, WrappedIndex(i, |buf|)), f.hand.isFist, f.targetNumber);
      Sub(t, HandOffset(f.hand, f.vp)) == Scale(local, GlyphScale(f.targetNumber))
  {
    var key := ShapeKey(f.targetNumber);
    if key !in shapes then p.target
    else
      var buf := shapes[key];
      var local := Implode(PointAt(buf, WrappedIndex(i, |buf|)), f.hand.isFist, f.targetNumber);
      var scale := GlyphScale(f.targetNumber);
      var off := HandOffset(f.hand, f.vp);
      Vec3(off.x + local.x * scale, off.y + local.y * scale, off.z + local.z * scale)
  }

  /** The fist's effect on the physics is immediate and exact: with the hand
      centred, a fist over a digit makes every target one tenth of the open
      hand's target. */
  lemma FistShrinksTargetsTenfold(p: Particle, i: nat, shapes: map<string, seq<real>>, f: Frame)
    requires WholePoints(shapes)
    requires f.targetNumber > 0 && ShapeKey(f.targetNumber) in shapes
    requires f.hand.x == 0.5 && f.hand.y == 0.5
    ensures var closed := ParticleTarget(p, i, shapes, f.(hand := f.hand.(isFist := true)));
      var open := ParticleTarget(p, i, shapes, f.(hand := f.hand.(isFist := false)));
      closed == Scale(open, Implosion)
  {
    var buf := shapes[ShapeKey(f.targetNumber)];
    var q := PointAt(buf, WrappedIndex(i, |buf|));
    var closed := ParticleTarget(p, i, shapes, f.(hand := f.hand.(isFist := true)));
    var open := ParticleTarget(p, i, shapes, f.(hand := f.hand.(isFist := false)));
    CentredHandNoOffset(f.hand.(isFist := true), f.vp);
    CentredHandNoOffset(f.hand.(isFist := false), f.vp);
    assert open == Vec3(q.x * DigitScale, q.y * DigitScale, q.z * DigitScale);
    assert closed == Vec3(q.x * Implosion * DigitScale, q.y * Implosion * DigitScale, q.z * Implosion * DigitScale);
  }

  // ---------------------------------------------------------------------
  // One physics step.
  // ---------------------------------------------------------------------

  /** The spring's pull: the offset to the target times the particle's
      speed. */
  function Pull(p: Particle): Vec3
  {
    Scale(Sub(p.target, p.pos), p.speed)
  }

  /** The spring force towards the target plus the turbulence. */
  function Force(p: Particle, noise: Vec3): Vec3
  {
    Add(Pull(p), Scale(noise, NoiseAmplitude))
  }

  /** The damped step: the force is added to the velocity, the velocity is
      damped, and the position moves by the new velocity. */
  function Step(p: Particle, noise: Vec3): (q: Particle)
    ensures q.vel == Scale(Add(p.vel, Force(p, noise)), Damping)
    ensures Sub(q.pos, p.pos) == q.vel
    ensures q.target == p.target && q.speed == p.speed
  {
    var vel := Scale(Add(p.vel, Force(p, noise)), Damping);
    Particle(Add(p.pos, vel), vel, p.target, p.speed)
  }

  /** A particle at rest on its target stays there when there is no noise. */
  lemma RestIsEquilibrium(p: Particle)
    requires p.pos == p.target && p.vel == Zero
    ensures Step(p, Zero) == p
  {
  }

  function Translate(p: Particle, d: Vec3): Particle
  {
    p.(pos := Add(p.pos, d), target := Add(p.target, d))
  }

  lemma SpringTranslation(a: real, b: real, d: real, k: real)
    ensures ((a + d) - (b + d)) * k == (a - b) * k
  {
    assert (a + d) - (b + d) == a - b;
  }

  /** The step depends only on the particle's position relative to its
      target: moving both by the same vector moves the result by it and
      leaves the velocity unchanged. */
  lemma StepTranslationEquivariant(p: Particle, noise: Vec3, d: Vec3)
    ensures Step(Translate(p, d), noise) == Translate(Step(p, noise), d)
  {
    SpringTranslation(p.target.x, p.pos.x, d.x, p.speed);
    SpringTranslation(p.target.y, p.pos.y, d.y, p.speed);
    SpringTranslation(p.target.z, p.pos.z, d.z, p.speed);
  }

  function Abs(x: real): real
  {
    if x < 0.0 then -x else x
  }

  /** The damping bounds the velocity along one axis: the new velocity is at
      most 0.9 times the old velocity plus the spring pull plus the noise
      amplitude. */
  lemma VelocityBoundAxis(v: real, pull: real, n: real, out: real)
    requires -1.0 <= n <= 1.0
    requires out == (v + (pull + n * NoiseAmplitude)) * Damping
    ensures Abs(out) <= Damping * (Abs(v) + Abs(pull) + NoiseAmplitude)
  {
  }

  /** Per axis, no step can raise the speed above 0.9 times the old speed
      plus the spring pull plus the noise amplitude. */
  lemma StepVelocityBound(p: Particle, noise: Vec3)
    requires -1.0 <= noise.x <= 1.0 && -1.0 <= noise.y <= 1.0 && -1.0 <= noise.z <= 1.0
    ensures var q := Step(p, noise);
      var pull := Pull(p);
      && Abs(q.vel.x) <= Damping * (Abs(p.vel.x) + Abs(pull.x) + NoiseAmplitude)
      && Abs(q.vel.y) <= Damping * (Abs(p.vel.y) + Abs(pull.y) + NoiseAmplitude)
      && Abs(q.vel.z) <= Damping * (Abs(p.vel.z) + Abs(pull.z) + NoiseAmplitude)
  {
    var q := Step(p, noise);
    var pull := Pull(p);
    VelocityBoundAxis(p.vel.x, pull.x, noise.x, q.vel.x);
    VelocityBoundAxis(p.vel.y, pull.y, noise.y, q.vel.y);
    VelocityBoundAxis(p.vel.z, pull.z, noise.z, q.vel.z);
  }

  // ---------------------------------------------------------------------
  // The frame: every particle retargeted and stepped.
  // ---------------------------------------------------------------------

  /** One particle's frame: its new target, then one step towards it. */
  function UpdateParticle(p: Particle, i: nat, shapes: map<string, seq<real>>, f: Frame, noise: Vec3): Particle
    requires WholePoints(shapes)
  {
    Step(p.(target := ParticleTarget(p, i, shapes, f)), noise)
  }

  /** The frame callback. Nothing happens until the instanced mesh is
      mounted and the font is loaded (`ready`); then every particle is
      retargeted and stepped with its own turbulence, independently of the
      others. */
  method UpdateFrame(ps: seq<Particle>, ready: bool, shapes: map<string, seq<real>>, f: Frame, noises: seq<Vec3>)
    returns (ps': seq<Particle>)
    requires WholePoints(shapes) && |noises| == |ps|
    ensures |ps'| == |ps|
    ensures !ready ==> ps' == ps
    ensures ready ==> forall i :: 0 <= i < |ps| ==> ps'[i] == UpdateParticle(ps[i], i, shapes, f, noises[i])
    ensures ready ==> forall i :: 0 <= i < |ps| ==>
      && ps'[i].target == ParticleTarget(ps[i], i, shapes, f)
      && ps'[i].speed == ps[i].speed
      && ps'[i].vel == Scale(Add(ps[i].vel, Force(ps[i].(target := ps'[i].target), noises[i])), Damping)
      && Sub(ps'[i].pos, ps[i].pos) == ps'[i].vel
    ensures ready && ShapeKey(f.targetNumber) !in shapes ==>
      forall i :: 0 <= i < |ps| ==> ps'[i].target == ps[i].target
    ensures ready && ShapeKey(f.targetNumber) !in shapes && AllAtRest(ps, noises) ==> ps' == ps
    ensures ready && Settled(ps, shapes, f, noises) ==> ps' == ps
  {
    if !ready {
      return ps;
    }
    ps' := [];
    var i := 0;
    while i < |ps|
      invariant 0 <= i <= |ps|
      invariant |ps'| == i
      invariant forall j :: 0 <= j < i ==> ps'[j] == UpdateParticle(ps[j], j, shapes, f, noises[j])
    {
      ps' := ps' + [UpdateParticle(ps[i], i, shapes, f, noises[i])];
      i := i + 1;
    }
    if Settled(ps, shapes, f, noises) || (ShapeKey(f.targetNumber) !in shapes && AllAtRest(ps, noises)) {
      RestingFrame(ps, shapes, f, noises);
    }
  }

  /** A particle whose target is already this frame's target, resting on it
      with no turbulence, is a fixed point of its frame update. */
  lemma SettledParticleIsFixed(p: Particle, i: nat, shapes: map<string, seq<real>>, f: Frame)
    requires WholePoints(shapes)
    requires p.target == ParticleTarget(p, i, shapes, f)
    requires p.pos == p.target && p.vel == Zero
    ensures UpdateParticle(p, i, shapes, f, Zero) == p
  {
    var q := p.(target := ParticleTarget(p, i, shapes, f));
    RestIsEquilibrium(q);
    assert q == p;
  }

  /** A field resting on this frame's targets without turbulence is a fixed
      point of the frame update. Without a glyph to retarget to, every
      field at rest on its targets is such a field. */
  lemma RestingFrame(ps: seq<Particle>, shapes: map<string, seq<real>>, f: Frame, noises: seq<Vec3>)
    requires WholePoints(shapes) && |noises| == |ps|
    requires Settled(ps, shapes, f, noises) || (ShapeKey(f.targetNumber) !in shapes && AllAtRest(ps, noises))
    ensures forall j :: 0 <= j < |ps| ==> UpdateParticle(ps[j], j, shapes, f, noises[j]) == ps[j]
  {
    forall j | 0 <= j < |ps|
      ensures UpdateParticle(ps[j], j, shapes, f, noises[j]) == ps[j]
    {
      SettledParticleIsFixed(ps[j], j, shapes, f);
    }
  }

  /** Every particle rests on its target and gets no turbulence. */
  predicate AllAtRest(ps: seq<Particle>, noises: seq<Vec3>)
    requires |noises| == |ps|
  {
    forall i :: 0 <= i < |ps| ==> ps[i].pos == ps[i].target && ps[i].vel == Zero && noises[i] == Zero
  }

  /** Every particle rests on the target this frame gives it and gets no
      turbulence. */
  predicate Settled(ps: seq<Particle>, shapes: map<string, seq<real>>, f: Frame, noises: seq<Vec3>)
    requires WholePoints(shapes) && |noises| == |ps|
  {
    AllAtRest(ps, noises) && forall i :: 0 <= i < |ps| ==> ps[i].target == ParticleTarget(ps[i], i, shapes, f)
  }

  /** The sampler fills every glyph buffer with one point per particle, so
      the shape table holds whole points and particle `i` targets point `i`
      of the current glyph. */
  lemma SampledShapesFitParticles(ready: bool, buffers: seq<seq<real>>, i: nat)
    requires |buffers| == |GlyphKeys|
    requires forall k :: 0 <= k < |buffers| ==> |buffers[k]| == 3 * ParticleCount
    requires i < ParticleCount
    ensures WholePoints(BuildShapes(ready, buffers))
    ensures forall k :: k in BuildShapes(ready, buffers) ==>
      WrappedIndex(i, |BuildShapes(ready, buffers)[k]|) == 3 * i
  {
    var shapes := BuildShapes(ready, buffers);
    forall k | k in shapes
      ensures |shapes[k]| == 3 * ParticleCount
    {
      var j :| 0 <= j < |GlyphKeys| && GlyphKeys[j] == k;
      assert shapes[k] == buffers[j];
    }
  }

  /** The sampling of the glyph table once the font is loaded: one buffer of
      `ParticleCount` points per glyph, in the order of `GlyphKeys`. Each
      glyph's text triangulates to a non-empty mesh. */
  method SampleGlyphs(meshes: seq<seq<Geometry.Triangle>>, lens: seq<seq<real>>, draws: seq<seq<Geometry.Draw>>)
    returns (buffers: seq<seq<real>>)
    requires |meshes| == |GlyphKeys| && |lens| == |GlyphKeys| && |draws| == |GlyphKeys|
    requires forall k :: 0 <= k < |GlyphKeys| ==>
      Geometry.MeasuredMesh(meshes[k], lens[k]) && |meshes[k]| > 0 && |draws[k]| == ParticleCount
    ensures |buffers| == |GlyphKeys|
    ensures forall k :: 0 <= k < |GlyphKeys| ==> |buffers[k]| == 3 * ParticleCount
    ensures forall k :: 0 <= k < |GlyphKeys| ==> |Geometry.Areas(lens[k])| == |meshes[k]|
    ensures forall k, j, c :: 0 <= k < |GlyphKeys| && 0 <= j < ParticleCount && 0 <= c < 3 ==>
      buffers[k][3 * j + c] == Coord(Geometry.SamplePoint(meshes[k], Geometry.Areas(lens[k]), draws[k][j]), c)
    ensures WholePoints(BuildShapes(true, buffers))
  {
    buffers := [];
    var k := 0;
    while k < |GlyphKeys|
      invariant 0 <= k <= |GlyphKeys|
      invariant |buffers| == k
      invariant forall m :: 0 <= m < k ==> |buffers[m]| == 3 * ParticleCount
      invariant forall m :: 0 <= m < |GlyphKeys| ==> |Geometry.Areas(lens[m])| == |meshes[m]| > 0
      invariant forall m, j, c :: 0 <= m < k && 0 <= j < ParticleCount && 0 <= c < 3 ==>
        buffers[m][3 * j + c] == Coord(Geometry.SamplePoint(meshes[m], Geometry.Areas(lens[m]), draws[m][j]), c)
    {
      var buf := Geometry.SampleText(meshes[k], lens[k], draws[k]);
      buffers := buffers + [buf.coords];
      k := k + 1;
    }
    SampledShapesFitParticles(true, buffers, 0);
  }
}

=== FILE: types.dfy ===
/** Shared records of the application: the hand reading that the tracker
    produces and the particle field consumes. */
module Types {

  /** One reading of the tracked hand. `x` and `y` are normalised screen
      coordinates (0 is left/top, 1 is right/bottom); `isPresent` says whether
      the latest processed frame contained a hand at all. */
  datatype HandData = HandData(x: real, y: real, isFist: bool, isPresent: bool)

  /** Both coordinates lie in the unit square. */
  predicate InUnitSquare(h: HandData)
  {
    0.0 <= h.x <= 1.0 && 0.0 <= h.y <= 1.0
  }
}

=== FILE: vectors.dfy ===
/** Exact three-dimensional vectors over the reals, standing in for the
    rendering library's floating-point `Vector3`. */
module Vectors {

  datatype Vec3 = Vec3(x: real, y: real, z: real)

  const Zero: Vec3 := Vec3(0.0, 0.0, 0.0)

  function Add(a: Vec3, b: Vec3): Vec3
  {
    Vec3(a.x + b.x, a.y + b.y, a.z + b.z)
  }

  function Sub(a: Vec3, b: Vec3): Vec3
  {
    Vec3(a.x - b.x, a.y - b.y, a.z - b.z)
  }

  function Scale(a: Vec3, k: real): Vec3
  {
    Vec3(a.x * k, a.y * k, a.z * k)
  }

  function Cross(a: Vec3, b: Vec3): Vec3
  {
    Vec3(a.y * b.z - a.z * b.y, a.z * b.x - a.x * b.z, a.x * b.y - a.y * b.x)
  }

  /** The squared Euclidean length. */
  function NormSq(a: Vec3): real
  {
    a.x * a.x + a.y * a.y + a.z * a.z
  }

  /** Coordinate `c` (0, 1 or 2) of a vector. */
  function Coord(a: Vec3, c: nat): real
    requires c < 3
  {
    if c == 0 then a.x else if c == 1 then a.y else a.z
  }

  /** `r` is the non-negative square root of `x`: what `Math.sqrt` returns.
      Square roots are never computed here; they are supplied as inputs
      together with this relation. */
  predicate IsSqrt(r: real, x: real)
  {
    r >= 0.0 && r * r == x
  }

  /** The non-negative square root is unique. */
  lemma SqrtUnique(a: real, b: real, x: real)
    requires IsSqrt(a, x) && IsSqrt(b, x)
    ensures a == b
  {
    if a < b {
      SquareLess(a, b);
    } else if b < a {
      SquareLess(b, a);
    }
  }

  /** Squaring is strictly increasing on the non-negative reals. */
  lemma SquareLess(lo: real, hi: real)
    requires 0.0 <= lo < hi
    ensures lo * lo < hi * hi
  {
    var d := hi - lo;
    assert d * lo >= 0.0;
    assert d * hi > 0.0;
    assert hi * hi - lo * lo == d * lo + d * hi;
  }

  /** Scaling the argument by `k * k` scales the root by `k`. */
  lemma SqrtScale(r: real, x: real, k: real)
    requires IsSqrt(r, x) && k > 0.0
    ensures IsSqrt(k * r, k * k * x)
  {
    assert (k * r) * (k * r) == k * k * (r * r);
  }
}
